=== FILE: README.md ===
# Job-application pipeline of the Oil & Gas job automation tool, in Dafny

This project models the core of `app.py`: the control flow and bookkeeping that
take each scraped job posting through document generation, dispatch and
tracking. Each job is handled as follows:

1. `ApplicationService.process_job_application` reads the two templates.
2. It asks the language model for a tailored résumé and cover letter.
3. It writes both to temp files.
4. It dispatches: an e-mail for method `"email"`, a staged JSON packet for any other method.
5. It inserts a row into the `applications` ledger and deletes the temp files.
6. Any exception is caught and becomes a `failed` row.

`scheduled_job_search` runs this for every scraped job in order.
`TrackingService.generate_daily_report` counts the day's rows.

Every collaborator call made while a job is processed is reduced to an outcome that the caller
supplies (`JobOutcomes`): the file system, the language model, SMTP and the sqlite INSERTs. The
daily report's sqlite read is a separate outcome parameter of `Tracking.GenerateDailyReport`. The state the pipeline changes is
one immutable `World`:

- the ledger, as a sequence of rows;
- the text files on disk, as a map from path to content;
- the staged packets, as a map from JSON path to packet;
- the messages handed to SMTP, as a sequence.

Reading a temp file back looks it up in that map. This applies to the e-mail
attachments and to the web-form packet contents. So the proofs have to show
that the files written earlier are still there.

Modules:
- `Types` (types.dfy): job, row, attachment, message, packet, world, and the outcome of one collaborator call.
- `Paths` (paths.dfy): temp-file and packet paths, attachment names, subject, body and recipient.
- `Tracking` (tracking.dfy): `record_application` and `generate_daily_report`.
- `Application` (application.dfy): the per-job outcomes (`JobOutcomes`) and the try/except step machine. It also
  gives an independent account (`Appended`) of which rows each job appends.
- `Scheduler` (scheduler.dfy): the run loop.

Facts about the code that the model keeps as written:
- There is no normalisation step, no identity key and no deduplication. The same
  posting scraped twice is processed twice.
- Any `application_method` other than exactly `"email"` is staged as a web form.
  This includes `"Email"` and the empty string.
- The staged packet is keyed by the sanitised `title_company` path. That path is
  not injective (`Paths.PendingPathCollision`), so two different jobs can
  overwrite each other's packet.
- Generated text is not validated. An empty response is used as it is.
- `generate_daily_report` returns no report (None) when the database cannot be
  read, rather than an empty report.
- The run returns no summary.
- Both attachments of an application e-mail are sent under their basename,
  and the two temp files share it. When the title holds no `/`, the shared
  name is `generated_`, then the title with spaces replaced by `_`, then
  `.txt` (`Paths.SharedBasename`, `Application.EmailAttachmentsShareName`).
- Every message is sent from the configured address. A job without
  `application_email` is therefore sent from that address to itself
  (`Application.FallbackSendsToSelf`).
- The web-form packet holds the temp files read back in text mode. Every
  `\r\n` and every lone `\r` in the generated documents becomes `\n` there
  (`Application.ReadText`). The e-mail attachments are read as bytes and keep them.
- A job that already sent its e-mail, or staged its packet, can still gain a
  `failed` row. This happens when deleting a temp file raises afterwards.

## Model

The string builders `Paths.ResumePath` (app.py:337), `Paths.CoverPath` (app.py:338),
`Paths.PendingPath` (app.py:397), `Paths.Subject` (app.py:368) and `Paths.Body`
(app.py:369-378) are each specified by their `*Shape` lemma below.

| member | source | states |
|---|---|---|
| Paths.ReplaceSpaces | app.py:337-338 | the sanitised text has the title's length, every space becomes `_`, every other character is kept, and no space remains |
| Paths.ReplaceSpacesIdempotent | app.py:337-338 | sanitising an already sanitised title changes nothing |
| Paths.ReplaceSpacesNotInjective | app.py:397 | a title with a space and the same title with `_` in its place sanitise to the same text |
| Paths.ResumePathShape | app.py:337 | the résumé path is `storage/resumes/generated_`, then the sanitised title, then `.txt`; it is 30 characters longer than the title and holds no space |
| Paths.CoverPathShape | app.py:338 | the cover-letter path is `storage/cover_letters/generated_`, then the sanitised title, then `.txt`; it is 36 characters longer and holds no space |
| Paths.TempPathsDistinct | app.py:337-338 | a résumé path and a cover-letter path are never equal, so the two temp files never clobber each other |
| Paths.ResumePathIdentifiesTitle | app.py:337 | two titles share a résumé path if and only if they agree after sanitising |
| Paths.PendingPathShape | app.py:397 | the packet path is the pending directory, the sanitised title, `_`, the sanitised company and `.json`; title and company are each sanitised in place, and the path holds no space |
| Paths.PendingPathNotTemp | app.py:397 | a packet path is never a temp-file path |
| Paths.PendingPathCollision | app.py:397 | jobs (`a_b`, `c`) and (`a`, `b_c`) are staged at the same path |
| Paths.SubjectShape | app.py:368 | the subject is `Application for `, then the title, then ` Position`, and the title can be read back from it |
| Paths.SubjectInjective | app.py:368 | two subjects are equal if and only if the titles are |
| Paths.Recipient | app.py:381 | the recipient is the job's `application_email` when it has one, else the configured address |
| Paths.BodyShape | app.py:369-378 | the body is the fixed salutation, the title, ` position at `, the company and the fixed closing, each at its fixed offset |
| Paths.Basename | app.py:252-253 | the attachment name is the longest suffix of the path without `/`: it is the whole path or follows a `/` |
| Paths.BasenameUnderDir | app.py:252-253 | a directory in front of a path does not change the name the file is attached under |
| Paths.SharedBasename | app.py:252-253 | the résumé and the cover letter of a job are attached under the same name, which is `generated_`, the sanitised title and `.txt` when the title has no `/` |
| Tracking.RecordApplication | app.py:268-280 | the ledger only grows at its end, by one row copying the given fields when the INSERT is stored; a failed INSERT leaves it unchanged and raises nothing |
| Tracking.TodaysRows | app.py:289-292 | the day's rows are exactly the ledger rows whose `date_applied` is on the day, each as many times as the ledger holds it, so the row count is fixed |
| Tracking.TodaysRowsAppend | app.py:289-292 | selecting the day's rows distributes over a ledger that grew by appending |
| Tracking.CountStatus | app.py:296-298 | a status count is at most the number of rows, and positive if and only if some row has that status |
| Tracking.CountIsMultiplicity | app.py:296-298 | a status count equals the multiplicity of that exact string in the status column |
| Tracking.CountAppend | app.py:296-298 | counting over two appended row lists adds the two counts |
| Tracking.CountsBoundedByTotal | app.py:295-298 | submitted + pending + failed is at most the total, and equals it if and only if every row has one of those three statuses |
| Tracking.Summarise | app.py:294-309 | the total is the number of rows; each count is that status's multiplicity and their sum is at most the total; the itemised list has the rows' length and order; no rows gives all zeros and an empty list |
| Tracking.GenerateDailyReport | app.py:282-315 | no report exactly when the query fails; otherwise the total is the number of the day's rows, each of the three counts is that status's multiplicity among the day's rows, the itemised list follows the day's rows one for one, and a day without rows gives the all-zero report |
| Application.WriteText | app.py:340-343 | a successful write stores the text at the path; a failed one raises and changes nothing |
| Application.RemoveFile | app.py:358-359 | deleting succeeds only for a present file and removes just that path; otherwise it raises and changes nothing |
| Application.HandleEmail | app.py:366-385 | succeeds if and only if both attachments exist and the send succeeds; then exactly one message is added, from the configured address to the recipient, with the job's subject and body and both temp files attached, each under its basename with the content read from the file; ledger, files and packets are untouched |
| Application.ReadText | app.py:393-394 | reading text back leaves no `\r`, never lengthens it, and returns text without `\r` unchanged |
| Application.ReadTextIdempotent | app.py:393-394 | reading back text that was already read back changes nothing |
| Application.ReadTextFoldsCRLF | app.py:393-394 | a `\r\n` between two pieces without `\r` is read back as a single `\n` |
| Application.ReadTextFoldsLoneCR | app.py:393-394 | a lone `\r` (not followed by `\n`) between two pieces without `\r` is read back as `\n` |
| Application.HandleWebForm | app.py:387-401 | succeeds if and only if the job has an apply URL, both temp files exist and the packet write succeeds; then the packet holds the job and both files' contents, read back in text mode, at the pending path; only the packets change |
| Application.MethodStatus | app.py:346-351 | a job whose dispatch succeeds is `submitted` exactly when its method is exactly `email`, and otherwise `pending`; never `failed` |
| Application.TryBlock | app.py:326-359 | the try block appends at most one row, the job's submitted or pending row, and sends at most one message |
| Application.ProcessJob | app.py:324-364 | the ledger only grows at its end, by at most two rows; each new row copies title, company, platform and method from the job and has one of the three statuses; at most one message is sent |
| Application.ProcessJobLedger | app.py:346-364 | the rows a job appends are exactly `Appended`: the submitted or pending row if it reaches the record step, then a failed row if any step raised; this holds whatever the world held before |
| Application.EmailSuccessSubmits | app.py:346-359 | an `email` job whose steps all succeed ends with one `submitted` row, one message to the recipient with the job's subject and body and the generated résumé and cover letter attached under their basenames, no packet, and no temp file left |
| Application.EmailAttachmentsShareName | app.py:250-254 | the message of a successful e-mail job carries the generated résumé and cover letter, both attached under the same name |
| Application.FallbackSendsToSelf | app.py:243 | an e-mail job without `application_email` sends its application from the configured address to that same address |
| Application.WebFormSuccessPending | app.py:349-359 | a job with any other method, an apply URL and all steps succeeding ends with one `pending` row, one packet holding the generated documents with newlines normalised, no message, and no temp file left |
| Application.FailureRecordsOnlyFailed | app.py:326-364 | if a template read, a generation, a temp write or the dispatch fails, the job appends only its `failed` row (when stored), sends nothing and stages nothing |
| Application.AtMostTwoRecords | app.py:354-364 | a job appends at most two rows; it appends two exactly when it reached the record step, cleanup then raised and both INSERTs were stored; the two rows are the submitted/pending row followed by `failed` |
| Application.EveryJobLeavesARow | app.py:354-364 | when both INSERTs are stored, every job leaves at least one row |
| Application.DispatchHappensOnce | app.py:346-351 | a message is sent exactly when the method is `email` and the job reaches the record step; otherwise the outbox is unchanged; any other method that gets that far stages a packet |
| Scheduler.RunJobs | app.py:411-412 | a run only appends to the ledger, at most two rows per job, all with one of the three statuses, and sends at most one message per job |
| Scheduler.RunSnoc | app.py:411-412 | one more loop iteration processes the next job after the run of the jobs before it |
| Scheduler.RunLedger | app.py:411-412 | the run appends, after the old ledger, each job's own rows in job order |
| Scheduler.RunConcat | app.py:411-412 | running two batches in turn is the same as running their concatenation |
| Scheduler.AppendedAllSplit | app.py:411-412 | the rows of a run split at any job into the rows before and the rows from that job on |
| Scheduler.AppendedAllAround | app.py:411-412 | the rows of a run are those of the jobs before `i`, then job `i`'s own rows, then those of the jobs after it |
| Scheduler.JobsAreIsolated | app.py:404-416 | job `i`'s rows sit between those of earlier and later jobs and depend only on job `i` and its own outcomes, so no failure of another job prevents or alters them |
| Scheduler.EveryJobRecorded | app.py:411-412 | when every INSERT is stored, the run adds at least one row per job |
| Scheduler.RunReportBalanced | app.py:295-298 | after a run on a ledger holding only the three statuses, the daily report's three counts add up to its total |
| Scheduler.ScheduledJobSearch | app.py:404-416 | the loop processes every job in input order; its result is the recursive run, and its ledger is the old ledger followed by every job's rows |

## Left out

- Scrapers (`scrape_rozee`, `scrape_indeed`, `scrape_linkedin`, `scrape_all_jobs`): HTTP and HTML parsing. The job list is an arbitrary input, and the method may be any string, although the scrapers always set `web_form`.
- `DocumentGenerator`: the language-model calls are foreign and nondeterministic. Each becomes a given text or a failure. Prompt construction is not modelled.
- `EmailService.send_email`: SMTP is one success-or-failure outcome, checked after the attachments are found. A send that delivers and then fails while closing the connection is not distinguished.
- File writes are all-or-nothing. A write that fails after `open(..., 'w')` has truncated the file is modelled as leaving the file system unchanged.
- Reading a temp file back starts from what is stored under its path; the text-mode read normalises newlines (`Application.ReadText`). Text files are written as on POSIX, where writing `\n` stores `\n`. Character encoding is not modelled. A read that fails for other operating-system reasons is not modelled.
- JSON encoding of the packet is not modelled. A packet is stored as a value.
- sqlite connection handling is not modelled. The autoincrement `id` column is left out. `date_applied` is the timestamp carried by the `LedgerWrite` outcome.
- `date('now')`: the day filter is a predicate supplied by the caller. The report's `date` field is a parameter.
- Tracking.TodaysRows: keeps ledger order. The SQL query has no ORDER BY, so the database does not promise any order; the contract fixes each row's multiplicity, not its position.
- Config values come from environment variables. The configured address is a plain string, so an unset variable (None) is not modelled.
- A job dictionary missing `title`, `company`, `platform` or `application_method` is not modelled. Such a job makes the except handler itself raise, which would end the whole run. Jobs here always carry those keys, as the scrapers build them. `apply_url` and `application_email` are optional.
- Logging, Flask routes, the background scheduler and the module-load side effects (`init_db`, `makedirs`) are plumbing.
- `scheduled_daily_report` only formats a report and e-mails it when one exists.
- deepseek_python_20250525_a1b681.py is an earlier, incomplete draft. It is not part of this model.

=== FILE: application.dfy ===
/** The application service: the per-job try/except step machine of
    `process_job_application` and its two dispatch handlers. */
module Application {
  import opened Types
  import opened Paths
  import opened Tracking

  /** What each collaborator call does while one job is processed. */
  datatype JobOutcomes = JobOutcomes(
    resumeTemplate: Outcome,      // reading the base résumé template
    coverTemplate: Outcome,       // reading the base cover-letter template
    resumeText: Option<string>,   // the generated résumé, or the generator raised
    coverText: Option<string>,    // the generated cover letter, or the generator raised
    writeResume: Outcome,         // writing the résumé temp file
    writeCover: Outcome,          // writing the cover-letter temp file
    dispatch: Outcome,            // the SMTP conversation, or writing the JSON packet
    record: LedgerWrite,          // the INSERT of the submitted or pending row
    removeResume: Outcome,        // deleting the résumé temp file
    removeCover: Outcome,         // deleting the cover-letter temp file
    recordFailure: LedgerWrite)   // the INSERT of the failed row

  /** Where the try block stands: still running, or an exception was raised
      and the world is as the last completed step left it. */
  datatype Flow = Running(world: World) | Raised(world: World)

  /** `open(path, 'w').write(text)`. */
  function WriteText(w: World, path: string, text: string, o: Outcome): (f: Flow)
    ensures f.Running? <==> o.Ok?
    ensures f.Running? ==> f.world == w.(files := w.files[path := text])
    ensures f.Raised? ==> f.world == w
  {
    if o.Ok? then Running(w.(files := w.files[path := text])) else Raised(w)
  }

  /** `os.remove(path)`: raises when the file is missing or the call fails. */
  function RemoveFile(w: World, path: string, o: Outcome): (f: Flow)
    ensures f.Running? <==> o.Ok? && path in w.files
    ensures f.Running? ==> f.world == w.(files := w.files - {path})
    ensures f.Raised? ==> f.world == w
  {
    if o.Ok? && path in w.files then Running(w.(files := w.files - {path})) else Raised(w)
  }

  /** `open(path, 'r').read()`: a text-mode read with universal newlines, so
      every `\r\n` and every lone `\r` comes back as `\n`. */
  function ReadText(s: string): (r: string)
    ensures |r| <= |s|
    ensures '\r' !in r
    ensures '\r' !in s ==> r == s
    decreases |s|
  {
    if s == [] then []
    else if s[0] == '\r' then
      if |s| > 1 && s[1] == '\n' then ['\n'] + ReadText(s[2..]) else ['\n'] + ReadText(s[1..])
    else [s[0]] + ReadText(s[1..])
  }

  /** Reading back text that was itself read back changes nothing. */
  lemma ReadTextIdempotent(s: string)
    ensures ReadText(ReadText(s)) == ReadText(s)
  {
  }

  /** A Windows line ending in a generated document is read back as `\n`. */
  lemma {:induction false} ReadTextFoldsCRLF(a: string, b: string)
    requires '\r' !in a && '\r' !in b
    ensures ReadText(a + ['\r', '\n'] + b) == a + ['\n'] + b
    decreases |a|
  {
    var s := a + ['\r', '\n'] + b;
    if a == [] {
      assert s == ['\r', '\n'] + b;
      assert s[0] == '\r' && s[1] == '\n' && s[2..] == b;
      assert ReadText(s) == ['\n'] + ReadText(b);
    } else {
      assert s[0] == a[0] && a[0] in a;
      assert s[1..] == a[1..] + ['\r', '\n'] + b;
      assert ReadText(s) == [a[0]] + ReadText(s[1..]);
      ReadTextFoldsCRLF(a[1..], b);
      assert a == [a[0]] + a[1..];
    }
  }

  /** A lone `\r` between two pieces without `\r` is read back as `\n`. */
  lemma {:induction false} ReadTextFoldsLoneCR(a: string, b: string)
    requires '\r' !in a && '\r' !in b && (b == [] || b[0] != '\n')
    ensures ReadText(a + ['\r'] + b) == a + ['\n'] + b
    decreases |a|
  {
    var s := a + ['\r'] + b;
    if a == [] {
      assert s == ['\r'] + b;
      assert s[0] == '\r' && s[1..] == b;
      assert ReadText(s) == ['\n'] + ReadText(b);
    } else {
      assert s[0] == a[0] && a[0] in a;
      assert s[1..] == a[1..] + ['\r'] + b;
      assert ReadText(s) == [a[0]] + ReadText(s[1..]);
      ReadTextFoldsLoneCR(a[1..], b);
      assert a == [a[0]] + a[1..];
    }
  }

  /** `_handle_email_application`: one message to the recipient, titled by the
      job, with both temp files attached. `send_email` reads every attachment
      before it talks to the server, so a missing file raises first; each is
      sent under its basename. */
  function HandleEmail(w: World, job: Job, cfg: Config, resumePath: string, coverPath: string,
                       send: Outcome): (f: Flow)
    ensures f.world.ledger == w.ledger && f.world.files == w.files && f.world.staged == w.staged
    ensures f.Running? <==> resumePath in w.files && coverPath in w.files && send.Ok?
    ensures f.Raised? ==> f.world.outbox == w.outbox
    ensures f.Running? ==> |f.world.outbox| == |w.outbox| + 1 && w.outbox <= f.world.outbox
    ensures f.Running? ==>
              var m := f.world.outbox[|w.outbox|];
              && m.sender == cfg.emailAddress
              && m.to == Recipient(job, cfg) && m.subject == Subject(job.title)
              && m.body == Body(job.title, job.company)
              && m.attachments == [Attachment(Basename(resumePath), w.files[resumePath]),
                                   Attachment(Basename(coverPath), w.files[coverPath])]
  {
    if resumePath in w.files && coverPath in w.files && send.Ok? then
      var m := Email(cfg.emailAddress, Recipient(job, cfg), Subject(job.title), Body(job.title, job.company),
                     [Attachment(Basename(resumePath), w.files[resumePath]),
                      Attachment(Basename(coverPath), w.files[coverPath])]);
      Running(w.(outbox := w.outbox + [m]))
    else
      Raised(w)
  }

  /** `_handle_web_form_application`: the job and both generated documents,
      read back from the temp files in text mode, saved as a packet for manual
      submission.
      A job without `apply_url` raises before anything is written. */
  function HandleWebForm(w: World, job: Job, resumePath: string, coverPath: string,
                         write: Outcome): (f: Flow)
    ensures f.world.ledger == w.ledger && f.world.files == w.files && f.world.outbox == w.outbox
    ensures f.Running? <==> job.applyUrl.Some? && resumePath in w.files && coverPath in w.files && write.Ok?
    ensures f.Raised? ==> f.world.staged == w.staged
    ensures f.Running? ==>
              f.world.staged == w.staged[PendingPath(job.title, job.company) :=
                Packet(job.title, job.company, job.applyUrl.value,
                       ReadText(w.files[resumePath]), ReadText(w.files[coverPath]))]
  {
    if job.applyUrl.Some? && resumePath in w.files && coverPath in w.files && write.Ok? then
      var packet := Packet(job.title, job.company, job.applyUrl.value,
                           ReadText(w.files[resumePath]), ReadText(w.files[coverPath]));
      Running(w.(staged := w.staged[PendingPath(job.title, job.company) := packet]))
    else
      Raised(w)
  }

  /** The status a job reaches when its dispatch succeeds: only the exact
      method string "email" is submitted; every other method is staged. */
  function MethodStatus(job: Job): (st: Status)
    ensures st != Failed
    ensures st == Submitted <==> job.applicationMethod == "email"
  {
    if job.applicationMethod == "email" then Submitted else Pending
  }

  /** The row `record_application` writes for a job, copying its fields. */
  function JobRecord(job: Job, status: Status, stamp: string): Record
  {
    Record(job.title, job.company, job.platform, job.applicationMethod, StatusText(status), stamp)
  }

  /** A ledger row copies title, company, platform and method from the job and
      carries one of the pipeline's statuses. */
  predicate RecordOf(r: Record, job: Job)
  {
    && r.jobTitle == job.title && r.company == job.company
    && r.platform == job.platform && r.applicationMethod == job.applicationMethod
    && KnownStatus(r.status)
  }

  /** The body of the `try` block of `process_job_application`. */
  function TryBlock(w: World, job: Job, cfg: Config, o: JobOutcomes): (f: Flow)
    ensures w.ledger <= f.world.ledger && |f.world.ledger| <= |w.ledger| + 1
    ensures |f.world.ledger| == |w.ledger| + 1 ==>
              o.record.Written? && f.world.ledger[|w.ledger|] == JobRecord(job, MethodStatus(job), o.record.dateApplied)
    ensures w.outbox <= f.world.outbox && |f.world.outbox| <= |w.outbox| + 1
  {
    if o.resumeTemplate.Fail? || o.coverTemplate.Fail? || o.resumeText.None? || o.coverText.None? then
      Raised(w)
    else
      var resumePath, coverPath := ResumePath(job.title), CoverPath(job.title);
      match WriteText(w, resumePath, o.resumeText.value, o.writeResume)
      case Raised(w1) => Raised(w1)
      case Running(w1) =>
        match WriteText(w1, coverPath, o.coverText.value, o.writeCover)
        case Raised(w2) => Raised(w2)
        case Running(w2) =>
          var sent :=
            if job.applicationMethod == "email" then HandleEmail(w2, job, cfg, resumePath, coverPath, o.dispatch)
            else HandleWebForm(w2, job, resumePath, coverPath, o.dispatch);
          match sent
          case Raised(w3) => Raised(w3)
          case Running(w3) =>
            var w4 := w3.(ledger := RecordApplication(w3.ledger, job.title, job.company, job.platform,
                                                      job.applicationMethod, StatusText(MethodStatus(job)), o.record));
            match RemoveFile(w4, resumePath, o.removeResume)
            case Raised(w5) => Raised(w5)
            case Running(w5) => RemoveFile(w5, coverPath, o.removeCover)
  }

  /** `process_job_application`: the try block, and on any exception a
      `failed` row. Whatever happens, the ledger only grows at its end, by at
      most two rows, each copying the job's fields; at most one message is sent. */
  function ProcessJob(w: World, job: Job, cfg: Config, o: JobOutcomes): (w': World)
    ensures w.ledger <= w'.ledger && |w'.ledger| <= |w.ledger| + 2
    ensures forall i :: |w.ledger| <= i < |w'.ledger| ==> RecordOf(w'.ledger[i], job)
    ensures w.outbox <= w'.outbox && |w'.outbox| <= |w.outbox| + 1
  {
    var f := TryBlock(w, job, cfg, o);
    assert forall i :: |w.ledger| <= i < |f.world.ledger| ==> RecordOf(f.world.ledger[i], job);
    match f
    case Running(w1) => w1
    case Raised(w1) =>
      var ledger := RecordApplication(w1.ledger, job.title, job.company, job.platform,
                                      job.applicationMethod, StatusText(Failed), o.recordFailure);
      assert forall i :: |w.ledger| <= i < |ledger| ==> RecordOf(ledger[i], job) by {
        forall i | |w.ledger| <= i < |ledger| ensures RecordOf(ledger[i], job) {
          if i < |w1.ledger| {
            assert ledger[i] == w1.ledger[i];
          }
        }
      }
      w1.(ledger := ledger)
  }

  // ---------------------------------------------------------------------
  // An independent account of which rows a job appends

  /** Reading a template, generating a document or writing a temp file fails. */
  predicate PreparationFails(o: JobOutcomes)
  {
    || o.resumeTemplate.Fail? || o.coverTemplate.Fail?
    || o.resumeText.None? || o.coverText.None?
    || o.writeResume.Fail? || o.writeCover.Fail?
  }

  /** The dispatch raises: the send or the packet write fails, or a web-form
      job has no apply URL. */
  predicate DispatchFails(job: Job, o: JobOutcomes)
  {
    o.dispatch.Fail? || (job.applicationMethod != "email" && job.applyUrl.None?)
  }

  /** The job gets as far as recording its submitted or pending row. */
  predicate ReachesRecord(job: Job, o: JobOutcomes)
  {
    !PreparationFails(o) && !DispatchFails(job, o)
  }

  predicate CleanupFails(o: JobOutcomes)
  {
    o.removeResume.Fail? || o.removeCover.Fail?
  }

  /** The rows one INSERT contributes: one if it is stored, none if lost. */
  function Row(job: Job, status: Status, write: LedgerWrite): seq<Record>
  {
    if write.Written? then [JobRecord(job, status, write.dateApplied)] else []
  }

  /** The rows a job appends: its submitted or pending row if it gets that
      far, then a failed row if any step raised. */
  function Appended(job: Job, o: JobOutcomes): seq<Record>
  {
    (if ReachesRecord(job, o) then Row(job, MethodStatus(job), o.record) else [])
    + (if !ReachesRecord(job, o) || CleanupFails(o) then Row(job, Failed, o.recordFailure) else [])
  }

  /** The step machine appends exactly the rows of the independent account,
      whatever the world held before. */
  lemma ProcessJobLedger(w: World, job: Job, cfg: Config, o: JobOutcomes)
    ensures ProcessJob(w, job, cfg, o).ledger == w.ledger + Appended(job, o)
  {
    var resumePath, coverPath := ResumePath(job.title), CoverPath(job.title);
    TempPathsDistinct(job.title, job.title);
    if !PreparationFails(o) {
      var w2 := w.(files := w.files[resumePath := o.resumeText.value][coverPath := o.coverText.value]);
      assert resumePath in w2.files && coverPath in w2.files;
      var sent :=
        if job.applicationMethod == "email" then HandleEmail(w2, job, cfg, resumePath, coverPath, o.dispatch)
        else HandleWebForm(w2, job, resumePath, coverPath, o.dispatch);
      assert sent.Running? <==> !DispatchFails(job, o);
      assert sent.world.ledger == w.ledger && sent.world.files == w2.files;
      if ReachesRecord(job, o) {
        var w4 := sent.world.(ledger := w.ledger + Row(job, MethodStatus(job), o.record));
        assert coverPath in w4.files - {resumePath};
      }
    }
  }

  /** Every collaborator call of the try block succeeds and its INSERT is stored. */
  predicate AllSucceed(o: JobOutcomes)
  {
    && !PreparationFails(o) && o.dispatch.Ok?
    && o.record.Written? && !CleanupFails(o)
  }

  /** An e-mail job whose every step succeeds sends one message, appends one
      `submitted` row, stages nothing and leaves no temp file behind. */
  lemma EmailSuccessSubmits(w: World, job: Job, cfg: Config, o: JobOutcomes)
    requires job.applicationMethod == "email" && AllSucceed(o)
    ensures var resumePath, coverPath := ResumePath(job.title), CoverPath(job.title);
            ProcessJob(w, job, cfg, o) == World(
              w.ledger + [Record(job.title, job.company, job.platform, "email", "submitted", o.record.dateApplied)],
              w.files - {resumePath, coverPath},
              w.staged,
              w.outbox + [Email(cfg.emailAddress, Recipient(job, cfg), Subject(job.title), Body(job.title, job.company),
                                [Attachment(Basename(resumePath), o.resumeText.value),
                                 Attachment(Basename(coverPath), o.coverText.value)])])
  {
  }

  /** The message of a successful e-mail job carries the generated résumé and
      cover letter, both under the same file name. */
  lemma EmailAttachmentsShareName(w: World, job: Job, cfg: Config, o: JobOutcomes)
    requires job.applicationMethod == "email" && AllSucceed(o)
    ensures var w' := ProcessJob(w, job, cfg, o);
            && |w'.outbox| == |w.outbox| + 1
            && var m := w'.outbox[|w.outbox|];
            && |m.attachments| == 2
            && m.attachments[0].content == o.resumeText.value
            && m.attachments[1].content == o.coverText.value
            && m.attachments[0].name == m.attachments[1].name
  {
    EmailSuccessSubmits(w, job, cfg, o);
    SharedBasename(job.title);
  }

  /** An e-mail job without `application_email` sends its application from the
      configured address to that same address. */
  lemma FallbackSendsToSelf(w: World, job: Job, cfg: Config, o: JobOutcomes)
    requires job.applicationMethod == "email" && AllSucceed(o) && job.applicationEmail.None?
    ensures var w' := ProcessJob(w, job, cfg, o);
            && |w'.outbox| == |w.outbox| + 1
            && w'.outbox[|w.outbox|].sender == cfg.emailAddress
            && w'.outbox[|w.outbox|].to == cfg.emailAddress
  {
    EmailSuccessSubmits(w, job, cfg, o);
  }

  /** A job with any method other than exactly "email", an apply URL and every
      step succeeding stages one packet holding the generated documents,
      appends one `pending` row, sends nothing and leaves no temp file behind. */
  lemma WebFormSuccessPending(w: World, job: Job, cfg: Config, o: JobOutcomes)
    requires job.applicationMethod != "email" && job.applyUrl.Some? && AllSucceed(o)
    ensures var resumePath, coverPath := ResumePath(job.title), CoverPath(job.title);
            ProcessJob(w, job, cfg, o) == World(
              w.ledger + [Record(job.title, job.company, job.platform, job.applicationMethod, "pending",
                                 o.record.dateApplied)],
              w.files - {resumePath, coverPath},
              w.staged[PendingPath(job.title, job.company) :=
                Packet(job.title, job.company, job.applyUrl.value,
                       ReadText(o.resumeText.value), ReadText(o.coverText.value))],
              w.outbox)
  {
  }

  /** When preparation or dispatch fails, the job appends only its `failed`
      row (if that INSERT is stored): no `submitted` or `pending` row, no
      message sent, no packet staged. */
  lemma FailureRecordsOnlyFailed(w: World, job: Job, cfg: Config, o: JobOutcomes)
    requires !ReachesRecord(job, o)
    ensures var w' := ProcessJob(w, job, cfg, o);
            && w'.ledger == w.ledger + Row(job, Failed, o.recordFailure)
            && (forall i :: |w.ledger| <= i < |w'.ledger| ==> w'.ledger[i].status == "failed")
            && w'.outbox == w.outbox && w'.staged == w.staged
  {
  }

  /** A job appends at most two rows; two only when its `submitted` or
      `pending` row was stored and deleting a temp file then raised, which adds
      a `failed` row after it. */
  lemma AtMostTwoRecords(w: World, job: Job, cfg: Config, o: JobOutcomes)
    ensures var w' := ProcessJob(w, job, cfg, o);
            |w'.ledger| - |w.ledger| <= 2
            && (|w'.ledger| - |w.ledger| == 2 <==>
                  ReachesRecord(job, o) && CleanupFails(o) && o.record.Written? && o.recordFailure.Written?)
            && (|w'.ledger| - |w.ledger| == 2 ==>
                  w'.ledger[|w.ledger|].status == StatusText(MethodStatus(job))
                  && w'.ledger[|w.ledger| + 1].status == "failed")
  {
  }

  /** When both INSERTs are stored, every job leaves at least one row. */
  lemma EveryJobLeavesARow(w: World, job: Job, cfg: Config, o: JobOutcomes)
    requires o.record.Written? && o.recordFailure.Written?
    ensures |ProcessJob(w, job, cfg, o).ledger| >= |w.ledger| + 1
  {
  }

  /** A message is sent exactly when the job's method is "email" and it
      reaches the record step; a packet is staged exactly when the method is
      anything else and it reaches the record step. */
  lemma DispatchHappensOnce(w: World, job: Job, cfg: Config, o: JobOutcomes)
    ensures var w' := ProcessJob(w, job, cfg, o);
            && (|w'.outbox| == |w.outbox| + 1 <==> job.applicationMethod == "email" && ReachesRecord(job, o))
            && (w'.outbox == w.outbox <==> !(job.applicationMethod == "email" && ReachesRecord(job, o)))
            && (job.applicationMethod == "email" || !ReachesRecord(job, o) ==> w'.staged == w.staged)
            && (job.applicationMethod != "email" && ReachesRecord(job, o) ==>
                  PendingPath(job.title, job.company) in w'.staged)
  {
  }
}

=== FILE: paths.dfy ===
/** The string builders of the application service: temp-file and
    pending-packet paths, the e-mail subject, body and recipient. */
module Paths {
  import opened Types

  const ResumeDir := "storage/resumes/"
  const CoverDir := "storage/cover_letters/"
  const Stem := "generated_"
  const ResumePrefix := ResumeDir + Stem
  const CoverPrefix := CoverDir + Stem
  const PendingDir := "storage/pending_applications/"
  const SubjectHead := "Application for "
  const SubjectTail := " Position"

  /** `s.replace(' ', '_')`: every ASCII space becomes an underscore. */
  function ReplaceSpaces(s: string): (r: string)
    ensures |r| == |s|
    ensures forall i :: 0 <= i < |s| ==> r[i] == (if s[i] == ' ' then '_' else s[i])
    ensures ' ' !in r
  {
    if s == [] then [] else [if s[0] == ' ' then '_' else s[0]] + ReplaceSpaces(s[1..])
  }

  /** Replacing twice changes nothing more than replacing once. */
  lemma ReplaceSpacesIdempotent(s: string)
    ensures ReplaceSpaces(ReplaceSpaces(s)) == ReplaceSpaces(s)
  {
    var r := ReplaceSpaces(s);
    assert forall i :: 0 <= i < |r| ==> r[i] != ' ';
  }

  /** A title with a space and the same title with an underscore in its place
      are sanitised to the same text: the replacement is not injective. */
  lemma ReplaceSpacesNotInjective()
    ensures ReplaceSpaces("a b") == ReplaceSpaces("a_b")
    ensures "a b" != "a_b"
  {
  }

  /** Path of the generated résumé for a job title. */
  function ResumePath(title: string): string
  {
    ResumePrefix + ReplaceSpaces(title) + ".txt"
  }

  /** The résumé path is the résumé prefix, the sanitised title and `.txt`,
      and holds no space. */
  lemma ResumePathShape(title: string)
    ensures var p := ResumePath(title);
            && |p| == |title| + 30
            && p[..26] == ResumePrefix && p[|p| - 4..] == ".txt"
            && p[26..|p| - 4] == ReplaceSpaces(title)
            && ' ' !in p
  {
  }

  /** Path of the generated cover letter for a job title. */
  function CoverPath(title: string): string
  {
    CoverPrefix + ReplaceSpaces(title) + ".txt"
  }

  /** The cover-letter path is the cover-letter prefix, the sanitised title
      and `.txt`, and holds no space. */
  lemma CoverPathShape(title: string)
    ensures var p := CoverPath(title);
            && |p| == |title| + 36
            && p[..32] == CoverPrefix && p[|p| - 4..] == ".txt"
            && p[32..|p| - 4] == ReplaceSpaces(title)
            && ' ' !in p
  {
  }

  /** The résumé and the cover letter of any two jobs never share a path
      (they live in different directories). */
  lemma TempPathsDistinct(t: string, u: string)
    ensures ResumePath(t) != CoverPath(u)
  {
    assert ResumePath(t)[8] == 'r';
    assert CoverPath(u)[8] == 'c';
  }

  /** Two titles share a résumé path exactly when they agree after
      sanitising. */
  lemma ResumePathIdentifiesTitle(t: string, u: string)
    ensures ResumePath(t) == ResumePath(u) <==> ReplaceSpaces(t) == ReplaceSpaces(u)
  {
    ResumePathShape(t);
    ResumePathShape(u);
    if ResumePath(t) == ResumePath(u) {
      var p := ResumePath(t);
      assert ReplaceSpaces(t) == p[26..|p| - 4] == ReplaceSpaces(u);
    }
  }

  /** Path of the JSON packet staged for a manual web-form application. */
  function PendingPath(title: string, company: string): string
  {
    PendingDir + ReplaceSpaces(title) + "_" + ReplaceSpaces(company) + ".json"
  }

  /** The packet path is the pending directory, the sanitised title, `_`, the
      sanitised company and `.json`, and holds no space. */
  lemma PendingPathShape(title: string, company: string)
    ensures var p := PendingPath(title, company);
            && |p| == |title| + |company| + 35
            && p[..29] == PendingDir && p[|p| - 5..] == ".json"
            && p[29..29 + |title|] == ReplaceSpaces(title)
            && p[29 + |title|] == '_'
            && p[30 + |title|..|p| - 5] == ReplaceSpaces(company)
            && ' ' !in p
  {
    var head := PendingDir + ReplaceSpaces(title) + "_";
    var tail := ReplaceSpaces(company) + ".json";
    assert ' ' !in head;
    assert ' ' !in tail;
    assert PendingPath(title, company) == head + tail;
  }

  /** A staged packet never lands on a temp-file path. */
  lemma PendingPathNotTemp(t: string, c: string, u: string)
    ensures PendingPath(t, c) != ResumePath(u) && PendingPath(t, c) != CoverPath(u)
  {
    assert PendingPath(t, c)[8] == 'p';
    assert ResumePath(u)[8] == 'r';
    assert CoverPath(u)[8] == 'c';
  }

  /** Two different (title, company) pairs can share a packet path, so the
      later job overwrites the earlier one's packet. */
  lemma PendingPathCollision()
    ensures PendingPath("a_b", "c") == PendingPath("a", "b_c")
  {
  }

  /** Subject line of an e-mail application. */
  function Subject(title: string): string
  {
    SubjectHead + title + SubjectTail
  }

  /** The subject is the fixed head, the title and the fixed tail, so the
      title can be read back from it. */
  lemma SubjectShape(title: string)
    ensures var s := Subject(title);
            && |s| == |title| + 25
            && s[..16] == SubjectHead && s[|s| - 9..] == SubjectTail
            && s[16..|s| - 9] == title
  {
  }

  /** Different titles give different subjects. */
  lemma SubjectInjective(t: string, u: string)
    ensures Subject(t) == Subject(u) <==> t == u
  {
    SubjectShape(t);
    SubjectShape(u);
    if Subject(t) == Subject(u) {
      var s := Subject(t);
      assert t == s[16..|s| - 9] == u;
    }
  }

  /** The fixed courteous body naming the title and the company. */
  const Salutation := "Dear Hiring Manager,\n        \n        Please find attached my application for the "
  const Closing := ".\n        \n        I believe my skills and experience align well with this role.\n        \n        Thank you for your consideration.\n        \n        Best regards,\n        [Your Name]"

  const PositionAt := " position at "

  function Body(title: string, company: string): string
  {
    Salutation + title + PositionAt + company + Closing
  }

  /** The body is the fixed salutation, the title, ` position at `, the
      company and the fixed closing, each at a fixed offset. */
  lemma BodyShape(title: string, company: string)
    ensures var b, n := Body(title, company), |Salutation|;
            && |b| == n + |title| + 13 + |company| + |Closing|
            && b[..n] == Salutation
            && b[n..n + |title|] == title
            && b[n + |title|..n + |title| + 13] == PositionAt
            && b[n + |title| + 13..n + |title| + 13 + |company|] == company
            && b[n + |title| + 13 + |company|..] == Closing
  {
    var b, n := Body(title, company), |Salutation|;
    assert b == Salutation + title + PositionAt + company + Closing;
    assert |PositionAt| == 13;
  }

  /** `os.path.basename(path)`: the part of the path after its last `/`. */
  function Basename(p: string): (b: string)
    ensures |b| <= |p| && b == p[|p| - |b|..]
    ensures '/' !in b
    ensures |b| < |p| ==> p[|p| - |b| - 1] == '/'
  {
    if p == [] then []
    else if p[|p| - 1] == '/' then []
    else Basename(p[..|p| - 1]) + [p[|p| - 1]]
  }

  /** Putting a directory in front of a path does not change its basename. */
  lemma {:induction false} BasenameUnderDir(dir: string, x: string)
    requires |dir| > 0 && dir[|dir| - 1] == '/'
    ensures Basename(dir + x) == Basename(x)
    decreases |x|
  {
    if x == [] {
      assert dir + x == dir;
    } else {
      var p := dir + x;
      assert p[|p| - 1] == x[|x| - 1];
      assert p[..|p| - 1] == dir + x[..|x| - 1];
      BasenameUnderDir(dir, x[..|x| - 1]);
    }
  }

  /** The file name both temp files share. */
  function TempName(title: string): string
  {
    Stem + ReplaceSpaces(title) + ".txt"
  }

  lemma TempPathsSplit(title: string)
    ensures ResumePath(title) == ResumeDir + TempName(title)
    ensures CoverPath(title) == CoverDir + TempName(title)
  {
  }

  /** A title without `/` gives a file name without `/`. */
  lemma TempNamePlain(title: string)
    requires '/' !in title
    ensures '/' !in TempName(title)
  {
    var r := ReplaceSpaces(title);
    assert '/' !in r by {
      forall i | 0 <= i < |r| ensures r[i] != '/' {
        assert title[i] in title;
      }
    }
  }

  /** The résumé and the cover letter of a job are attached under the same
      name, `generated_<title>.txt` when the title holds no `/`. */
  lemma SharedBasename(title: string)
    ensures Basename(ResumePath(title)) == Basename(CoverPath(title))
    ensures '/' !in title ==> Basename(ResumePath(title)) == Stem + ReplaceSpaces(title) + ".txt"
  {
    TempPathsSplit(title);
    BasenameUnderDir(ResumeDir, TempName(title));
    BasenameUnderDir(CoverDir, TempName(title));
    if '/' !in title {
      TempNamePlain(title);
      BasenameOfPlain(TempName(title));
    }
  }

  /** A path with no `/` is its own basename. */
  lemma BasenameOfPlain(p: string)
    requires '/' !in p
    ensures Basename(p) == p
  {
  }

  /** `job.get('application_email', Config.EMAIL_ADDRESS)`. */
  function Recipient(job: Job, cfg: Config): (to: string)
    ensures job.applicationEmail.Some? ==> to == job.applicationEmail.value
    ensures job.applicationEmail.None? ==> to == cfg.emailAddress
  {
    match job.applicationEmail
    case Some(e) => e
    case None => cfg.emailAddress
  }
}

=== FILE: scheduler.dfy ===
/** The scheduled job search: every scraped job goes through the per-job
    step machine, one after another, in the order the scrapers returned them. */
module Scheduler {
  import opened Types
  import opened Tracking
  import opened Application

  /** `for job in new_jobs: app_service.process_job_application(job)`, with
      `outcomes[i]` saying what the collaborators do for `jobs[i]`. */
  function RunJobs(w: World, jobs: seq<Job>, cfg: Config, outcomes: seq<JobOutcomes>): (w': World)
    requires |outcomes| == |jobs|
    ensures w.ledger <= w'.ledger && |w'.ledger| <= |w.ledger| + 2 * |jobs|
    ensures forall i :: |w.ledger| <= i < |w'.ledger| ==> KnownStatus(w'.ledger[i].status)
    ensures w.outbox <= w'.outbox && |w'.outbox| <= |w.outbox| + |jobs|
    decreases |jobs|
  {
    if jobs == [] then w
    else RunJobs(ProcessJob(w, jobs[0], cfg, outcomes[0]), jobs[1..], cfg, outcomes[1..])
  }

  /** The rows of a whole run: each job's own rows, in job order. */
  function AppendedAll(jobs: seq<Job>, outcomes: seq<JobOutcomes>): seq<Record>
    requires |outcomes| == |jobs|
    decreases |jobs|
  {
    if jobs == [] then [] else Appended(jobs[0], outcomes[0]) + AppendedAll(jobs[1..], outcomes[1..])
  }

  /** A non-empty run is its first job followed by the run of the rest. */
  lemma RunJobsStep(w: World, jobs: seq<Job>, cfg: Config, outcomes: seq<JobOutcomes>)
    requires |outcomes| == |jobs| && jobs != []
    ensures RunJobs(w, jobs, cfg, outcomes)
            == RunJobs(ProcessJob(w, jobs[0], cfg, outcomes[0]), jobs[1..], cfg, outcomes[1..])
  {
  }

  /** A run of one job is that job's processing. */
  lemma RunSingle(w: World, job: Job, cfg: Config, o: JobOutcomes)
    ensures RunJobs(w, [job], cfg, [o]) == ProcessJob(w, job, cfg, o)
  {
    RunJobsStep(w, [job], cfg, [o]);
    assert [job][1..] == [] && [o][1..] == [];
  }

  /** Extending a prefix of the jobs by one processes that one job after the
      run of the prefix. */
  lemma RunSnoc(w0: World, jobs: seq<Job>, cfg: Config, outcomes: seq<JobOutcomes>, i: nat)
    requires |outcomes| == |jobs| && i < |jobs|
    ensures RunJobs(w0, jobs[..i + 1], cfg, outcomes[..i + 1])
            == ProcessJob(RunJobs(w0, jobs[..i], cfg, outcomes[..i]), jobs[i], cfg, outcomes[i])
  {
    var r := RunJobs(w0, jobs[..i], cfg, outcomes[..i]);
    calc {
      RunJobs(w0, jobs[..i + 1], cfg, outcomes[..i + 1]);
      { assert jobs[..i + 1] == jobs[..i] + [jobs[i]];
        assert outcomes[..i + 1] == outcomes[..i] + [outcomes[i]]; }
      RunJobs(w0, jobs[..i] + [jobs[i]], cfg, outcomes[..i] + [outcomes[i]]);
      { RunConcat(w0, jobs[..i], [jobs[i]], cfg, outcomes[..i], [outcomes[i]]); }
      RunJobs(r, [jobs[i]], cfg, [outcomes[i]]);
      { RunSingle(r, jobs[i], cfg, outcomes[i]); }
      ProcessJob(r, jobs[i], cfg, outcomes[i]);
    }
  }

  /** The run appends, after the old ledger, the rows of every job in order. */
  lemma {:induction false} RunLedger(w: World, jobs: seq<Job>, cfg: Config, outcomes: seq<JobOutcomes>)
    requires |outcomes| == |jobs|
    ensures RunJobs(w, jobs, cfg, outcomes).ledger == w.ledger + AppendedAll(jobs, outcomes)
    decreases |jobs|
  {
    if jobs != [] {
      var w1 := ProcessJob(w, jobs[0], cfg, outcomes[0]);
      var own, rest := Appended(jobs[0], outcomes[0]), AppendedAll(jobs[1..], outcomes[1..]);
      calc {
        RunJobs(w, jobs, cfg, outcomes).ledger;
        { RunJobsStep(w, jobs, cfg, outcomes); }
        RunJobs(w1, jobs[1..], cfg, outcomes[1..]).ledger;
        { RunLedger(w1, jobs[1..], cfg, outcomes[1..]); }
        w1.ledger + rest;
        { ProcessJobLedger(w, jobs[0], cfg, outcomes[0]); }
        (w.ledger + own) + rest;
        w.ledger + (own + rest);
        w.ledger + AppendedAll(jobs, outcomes);
      }
    }
  }

  /** Running two batches one after the other is running their concatenation. */
  lemma {:induction false} RunConcat(w: World, a: seq<Job>, b: seq<Job>, cfg: Config,
                                     oa: seq<JobOutcomes>, ob: seq<JobOutcomes>)
    requires |oa| == |a| && |ob| == |b|
    ensures RunJobs(w, a + b, cfg, oa + ob) == RunJobs(RunJobs(w, a, cfg, oa), b, cfg, ob)
    decreases |a|
  {
    if a == [] {
      assert a + b == b && oa + ob == ob;
    } else {
      assert (a + b)[0] == a[0] && (oa + ob)[0] == oa[0];
      assert (a + b)[1..] == a[1..] + b && (oa + ob)[1..] == oa[1..] + ob;
      RunConcat(ProcessJob(w, a[0], cfg, oa[0]), a[1..], b, cfg, oa[1..], ob);
    }
  }

  /** The rows of a run split at any job. */
  lemma {:induction false} AppendedAllSplit(jobs: seq<Job>, outcomes: seq<JobOutcomes>, i: nat)
    requires |outcomes| == |jobs| && i <= |jobs|
    ensures AppendedAll(jobs, outcomes)
            == AppendedAll(jobs[..i], outcomes[..i]) + AppendedAll(jobs[i..], outcomes[i..])
    decreases i
  {
    if i > 0 {
      AppendedAllSplit(jobs[1..], outcomes[1..], i - 1);
      assert jobs[1..][..i - 1] == jobs[..i][1..] && outcomes[1..][..i - 1] == outcomes[..i][1..];
      assert jobs[1..][i - 1..] == jobs[i..] && outcomes[1..][i - 1..] == outcomes[i..];
    } else {
      assert jobs[..0] == [] && jobs[0..] == jobs && outcomes[0..] == outcomes;
    }
  }

  /** The rows of a run are those of the jobs before `i`, then job `i`'s own,
      then those of the jobs after it. */
  lemma {:induction false} AppendedAllAround(jobs: seq<Job>, outcomes: seq<JobOutcomes>, i: nat)
    requires |outcomes| == |jobs| && i < |jobs|
    ensures AppendedAll(jobs, outcomes)
            == AppendedAll(jobs[..i], outcomes[..i])
               + Appended(jobs[i], outcomes[i])
               + AppendedAll(jobs[i + 1..], outcomes[i + 1..])
  {
    AppendedAllSplit(jobs, outcomes, i);
    assert jobs[i..][0] == jobs[i] && outcomes[i..][0] == outcomes[i];
    assert jobs[i..][1..] == jobs[i + 1..] && outcomes[i..][1..] == outcomes[i + 1..];
  }

  /** Failure isolation: the rows of job `i` sit between those of the jobs
      before and after it, and depend on job `i` and its own outcomes alone —
      whatever failed for any other job. */
  lemma {:induction false} JobsAreIsolated(w: World, jobs: seq<Job>, cfg: Config, outcomes: seq<JobOutcomes>, i: nat)
    requires |outcomes| == |jobs| && i < |jobs|
    ensures RunJobs(w, jobs, cfg, outcomes).ledger
            == w.ledger + AppendedAll(jobs[..i], outcomes[..i])
               + Appended(jobs[i], outcomes[i])
               + AppendedAll(jobs[i + 1..], outcomes[i + 1..])
  {
    RunLedger(w, jobs, cfg, outcomes);
    AppendedAllAround(jobs, outcomes, i);
  }

  /** When every INSERT is stored, every job of the run leaves at least one row. */
  lemma {:induction false} EveryJobRecorded(w: World, jobs: seq<Job>, cfg: Config, outcomes: seq<JobOutcomes>)
    requires |outcomes| == |jobs|
    requires forall i :: 0 <= i < |outcomes| ==> outcomes[i].record.Written? && outcomes[i].recordFailure.Written?
    ensures |RunJobs(w, jobs, cfg, outcomes).ledger| >= |w.ledger| + |jobs|
    decreases |jobs|
  {
    if jobs != [] {
      var w1 := ProcessJob(w, jobs[0], cfg, outcomes[0]);
      EveryJobLeavesARow(w, jobs[0], cfg, outcomes[0]);
      EveryJobRecorded(w1, jobs[1..], cfg, outcomes[1..]);
    }
  }

  /** After a run over a ledger holding only the pipeline's statuses, the
      daily report's submitted, pending and failed counts add up to its total. */
  lemma {:induction false} RunReportBalanced(w: World, jobs: seq<Job>, cfg: Config, outcomes: seq<JobOutcomes>,
                          onDay: string -> bool, today: string)
    requires |outcomes| == |jobs|
    requires forall r :: r in w.ledger ==> KnownStatus(r.status)
    ensures var rep := GenerateDailyReport(RunJobs(w, jobs, cfg, outcomes).ledger, onDay, today, Ok);
            rep.Some? && rep.value.submitted + rep.value.pending + rep.value.failed == rep.value.totalApplications
  {
  }

  /** The loop in `scheduled_job_search` (app.py:411-412): processes every
      job in order, and the result is the run and its rows. */
  method ScheduledJobSearch(w0: World, jobs: seq<Job>, cfg: Config, outcomes: seq<JobOutcomes>)
    returns (w: World)
    requires |outcomes| == |jobs|
    ensures w == RunJobs(w0, jobs, cfg, outcomes)
    ensures w.ledger == w0.ledger + AppendedAll(jobs, outcomes)
  {
    w := w0;
    var i := 0;
    while i < |jobs|
      invariant 0 <= i <= |jobs|
      invariant w == RunJobs(w0, jobs[..i], cfg, outcomes[..i])
    {
      RunSnoc(w0, jobs, cfg, outcomes, i);
      w := ProcessJob(w, jobs[i], cfg, outcomes[i]);
      i := i + 1;
    }
    assert jobs[..i] == jobs && outcomes[..i] == outcomes;
    RunLedger(w0, jobs, cfg, outcomes);
  }
}

=== FILE: tracking.dfy ===
/** The tracking service: appending rows to the applications ledger and
    aggregating one day's rows into the daily report. */
module Tracking {
  import opened Types

  /** `record_application`: one INSERT, whose failure is logged and swallowed,
      so the caller never sees an error and the ledger only ever grows at its end. */
  function RecordApplication(ledger: seq<Record>, title: string, company: string, platform: string,
                             applicationMethod: string, status: string, write: LedgerWrite): (r: seq<Record>)
    ensures ledger <= r && |r| <= |ledger| + 1
    ensures |r| == |ledger| + 1 <==> write.Written?
    ensures write.Written? ==> r[|ledger|] == Record(title, company, platform, applicationMethod, status, write.dateApplied)
  {
    match write
    case Written(stamp) => ledger + [Record(title, company, platform, applicationMethod, status, stamp)]
    case Lost => ledger
  }

  /** A line of the itemised list in the daily report. */
  datatype ReportItem = ReportItem(job: string, company: string, platform: string, status: string)

  /** The report dictionary built by `generate_daily_report`. */
  datatype Report = Report(
    date: string,
    totalApplications: nat,
    submitted: nat,
    pending: nat,
    failed: nat,
    applications: seq<ReportItem>)

  /** The SELECT of the day's rows; the SQL date comparison is the given
      predicate on the `date_applied` column. Rows keep ledger order. */
  function TodaysRows(ledger: seq<Record>, onDay: string -> bool): (rows: seq<Record>)
    ensures |rows| <= |ledger|
    ensures forall r :: r in rows ==> r in ledger && onDay(r.dateApplied)
    ensures forall r :: r in ledger && onDay(r.dateApplied) ==> r in rows
    ensures forall r :: multiset(rows)[r] == if onDay(r.dateApplied) then multiset(ledger)[r] else 0
  {
    if ledger == [] then []
    else
      assert ledger == [ledger[0]] + ledger[1..];
      if onDay(ledger[0].dateApplied) then [ledger[0]] + TodaysRows(ledger[1..], onDay)
      else TodaysRows(ledger[1..], onDay)
  }

  /** Selecting the day's rows of a ledger that grew by appending selects the
      old day's rows followed by the day's rows among the new ones. */
  lemma {:induction false} TodaysRowsAppend(a: seq<Record>, b: seq<Record>, onDay: string -> bool)
    ensures TodaysRows(a + b, onDay) == TodaysRows(a, onDay) + TodaysRows(b, onDay)
  {
    if a == [] {
      assert a + b == b;
    } else {
      assert (a + b)[0] == a[0];
      assert (a + b)[1..] == a[1..] + b;
      TodaysRowsAppend(a[1..], b, onDay);
    }
  }

  /** `len([app for app in applications if app[3] == status])`. */
  function CountStatus(rows: seq<Record>, status: string): (n: nat)
    ensures n <= |rows|
    ensures n > 0 <==> exists r :: r in rows && r.status == status
  {
    if rows == [] then 0
    else (if rows[0].status == status then 1 else 0) + CountStatus(rows[1..], status)
  }

  /** The status column of the rows, in order. */
  function Statuses(rows: seq<Record>): (s: seq<string>)
    ensures |s| == |rows|
    ensures forall i :: 0 <= i < |rows| ==> s[i] == rows[i].status
  {
    seq(|rows|, i requires 0 <= i < |rows| => rows[i].status)
  }

  /** A status count is the multiplicity of that status among the rows. */
  lemma {:induction false} CountIsMultiplicity(rows: seq<Record>, status: string)
    ensures CountStatus(rows, status) == multiset(Statuses(rows))[status]
  {
    if rows != [] {
      CountIsMultiplicity(rows[1..], status);
      assert Statuses(rows) == [rows[0].status] + Statuses(rows[1..]);
    }
  }

  /** Counting over an appended ledger adds the two counts. */
  lemma {:induction false} CountAppend(a: seq<Record>, b: seq<Record>, status: string)
    ensures CountStatus(a + b, status) == CountStatus(a, status) + CountStatus(b, status)
  {
    if a == [] {
      assert a + b == b;
    } else {
      assert (a + b)[0] == a[0];
      assert (a + b)[1..] == a[1..] + b;
      CountAppend(a[1..], b, status);
    }
  }

  /** The status column holds the text of one of the pipeline's statuses. */
  predicate KnownStatus(s: string)
  {
    s == StatusText(Submitted) || s == StatusText(Pending) || s == StatusText(Failed)
  }

  /** The three status counts never exceed the number of rows, and they add up
      to it exactly when every row carries one of the three statuses. */
  lemma {:induction false} CountsBoundedByTotal(rows: seq<Record>)
    ensures CountStatus(rows, "submitted") + CountStatus(rows, "pending") + CountStatus(rows, "failed") <= |rows|
    ensures CountStatus(rows, "submitted") + CountStatus(rows, "pending") + CountStatus(rows, "failed") == |rows|
            <==> forall r :: r in rows ==> KnownStatus(r.status)
  {
    if rows != [] {
      var head, rest := rows[0], rows[1..];
      CountsBoundedByTotal(rest);
      var sumRest := CountStatus(rest, "submitted") + CountStatus(rest, "pending") + CountStatus(rest, "failed");
      var sum := CountStatus(rows, "submitted") + CountStatus(rows, "pending") + CountStatus(rows, "failed");
      assert sum == (if KnownStatus(head.status) then 1 else 0) + sumRest;
      assert rows == [head] + rest;
      assert (forall r :: r in rows ==> KnownStatus(r.status))
             <==> KnownStatus(head.status) && forall r :: r in rest ==> KnownStatus(r.status);
    }
  }

  /** The counting and itemising part of `generate_daily_report`, over the
      rows already selected for the day. */
  function Summarise(rows: seq<Record>, date: string): (rep: Report)
    ensures rep.date == date && rep.totalApplications == |rows|
    ensures rep.submitted == multiset(Statuses(rows))["submitted"]
    ensures rep.pending == multiset(Statuses(rows))["pending"]
    ensures rep.failed == multiset(Statuses(rows))["failed"]
    ensures rep.submitted + rep.pending + rep.failed <= rep.totalApplications
    ensures rep.submitted + rep.pending + rep.failed == rep.totalApplications
            <==> forall r :: r in rows ==> KnownStatus(r.status)
    ensures |rep.applications| == |rows|
    ensures forall i :: 0 <= i < |rows| ==>
              rep.applications[i] == ReportItem(rows[i].jobTitle, rows[i].company, rows[i].platform, rows[i].status)
    ensures rows == [] ==> rep == Report(date, 0, 0, 0, 0, [])
  {
    CountsBoundedByTotal(rows);
    CountIsMultiplicity(rows, "submitted");
    CountIsMultiplicity(rows, "pending");
    CountIsMultiplicity(rows, "failed");
    Report(
      date,
      |rows|,
      CountStatus(rows, "submitted"),
      CountStatus(rows, "pending"),
      CountStatus(rows, "failed"),
      seq(|rows|, i requires 0 <= i < |rows| =>
        ReportItem(rows[i].jobTitle, rows[i].company, rows[i].platform, rows[i].status)))
  }

  /** `generate_daily_report`: the day's rows summarised, or no report when
      the database cannot be read. */
  function GenerateDailyReport(ledger: seq<Record>, onDay: string -> bool, today: string,
                               query: Outcome): (rep: Option<Report>)
    ensures rep.None? <==> query.Fail?
    ensures rep.Some? ==> rep.value.date == today
    ensures rep.Some? ==> rep.value.totalApplications == |TodaysRows(ledger, onDay)|
    ensures rep.Some? ==>
              var rows := TodaysRows(ledger, onDay);
              && rep.value.submitted == multiset(Statuses(rows))["submitted"]
              && rep.value.pending == multiset(Statuses(rows))["pending"]
              && rep.value.failed == multiset(Statuses(rows))["failed"]
              && |rep.value.applications| == |rows|
              && forall i :: 0 <= i < |rows| ==>
                   rep.value.applications[i]
                   == ReportItem(rows[i].jobTitle, rows[i].company, rows[i].platform, rows[i].status)
    ensures rep.Some? ==> rep.value.submitted + rep.value.pending + rep.value.failed
                          <= rep.value.totalApplications
    ensures rep.Some? && (forall r :: r in ledger ==> !onDay(r.dateApplied)) ==>
              rep.value == Report(today, 0, 0, 0, 0, [])
  {
    if query.Fail? then None
    else
      var rows := TodaysRows(ledger, onDay);
      assert (forall r :: r in ledger ==> !onDay(r.dateApplied)) ==> rows == [] by {
        if rows != [] {
          assert rows[0] in rows;
        }
      }
      Some(Summarise(rows, today))
  }
}

=== FILE: types.dfy ===
/** Entities of the job-application pipeline: the scraped job, the rows of the
    `applications` table, the outgoing e-mail, the staged web-form packet and the
    world the pipeline acts on. Collaborators the model cannot see (file system,
    SMTP, the language model, sqlite) are reduced to outcomes. */
module Types {

  datatype Option<+T> = None | Some(value: T)

  /** Success or failure (a raised exception) of one call into a collaborator. */
  datatype Outcome = Ok | Fail

  /** One INSERT into the applications table: the row is stored with the
      timestamp the database gave it, or the error is logged and swallowed. */
  datatype LedgerWrite = Written(dateApplied: string) | Lost

  /** A scraped job posting, as the dictionary the scrapers build.
      `apply_url` and `application_email` are the keys a job may lack. */
  datatype Job = Job(
    title: string,
    company: string,
    location: string,
    description: string,
    applyUrl: Option<string>,
    platform: string,
    applicationMethod: string,
    applicationEmail: Option<string>)

  /** The three statuses the pipeline writes. */
  datatype Status = Submitted | Pending | Failed

  function StatusText(s: Status): string
  {
    match s
    case Submitted => "submitted"
    case Pending => "pending"
    case Failed => "failed"
  }

  /** A row of the applications table; the status column is free text. */
  datatype Record = Record(
    jobTitle: string,
    company: string,
    platform: string,
    applicationMethod: string,
    status: string,
    dateApplied: string)

  /** A file attached to a message: the name it is sent under and the text
      read from the file when the message is built. */
  datatype Attachment = Attachment(name: string, content: string)

  /** A message handed to the SMTP server. */
  datatype Email = Email(sender: string, to: string, subject: string, body: string,
                         attachments: seq<Attachment>)

  /** The data saved for a manual web-form submission. */
  datatype Packet = Packet(
    jobTitle: string,
    company: string,
    applyUrl: string,
    resumeContent: string,
    coverLetterContent: string)

  /** Everything the pipeline changes: the ledger, the text files on disk,
      the staged packets (keyed by their JSON path) and the messages sent. */
  datatype World = World(
    ledger: seq<Record>,
    files: map<string, string>,
    staged: map<string, Packet>,
    outbox: seq<Email>)

  /** The configured sender address, used as the fallback recipient. */
  datatype Config = Config(emailAddress: string)
}
